=== FILE: README.md ===
# SPSA in Dafny

This project models the core of a small Go package for SPSA. SPSA (Simultaneous Perturbation Stochastic Approximation) minimises a loss function `L` over a parameter vector `Theta`.

Each round does four things:
1. It draws a random perturbation `delta`, one sample per coordinate scaled by the gain `c_k`.
2. It evaluates the loss at `Theta + delta` and at `Theta - delta`.
3. It estimates every gradient component as `(L(Theta + delta) - L(Theta - delta)) / (2 delta[i])`.
4. It steps against that estimate, scaled by the gain `a_k`, and maps the result back into the feasible region.

The model has nine modules:

- `Vectors` (vector.go): out-of-place vector arithmetic (`Copy`, `Scale`, `Add`, `Subtract`), aggregates (`Sum`, `Mean`, `Var`, `MeanSquare`) and the bracketed text form (`String`). A Go `[]float64` is a `seq<real>`.
- `Streams`: an endless supply of reals read through a cursor. It models both a gain-sequence channel (one value per receive) and the `math/rand` draws behind a perturbation distribution.
- `Gains` (spsa.go `StandardAk`, `StandardCk`): the gains `a / (k + A)^alpha` for `k = 1, 2, ...`. The power function is a parameter; the laws the proofs need are the predicate `PowLaws`.
- `Perturbation` (spsa.go `SampleN`, `Bernoulli`, `SegmentedUniform`): a distribution maps one uniform draw to a sample.
- `Constraints` (spsa.go `NoConstraints`, `BoundedConstraints.Constrain`): the identity and the per-coordinate clamp.
- `Engine` (spsa.go `estimateGradient`, `round`, `Run`, `Optimize`): the SPSA state is a datatype and a round is a function from state to state.
  - Division by a zero perturbation component is `Err(ZeroPerturbation(i))`, with `i` the first zero component. In Go this gives IEEE infinities or NaN, and Go carries on with them (see "## Left out").
  - Bounded constraints with fewer bounds than coordinates are `Err(MissingBounds(n))`. In Go this is an index panic.
- `Losses` (example_loss.go): `AbsoluteSum` and `Rosenbrock`.
- `VectorExamples` (vector_test.go): the concrete vectors the tests use, and the tolerance comparison the tests use.
- `SpsaExamples` (spsa_test.go): `Optimize` applied to the absolute-sum loss.

Where the package documentation and the code differ, the model follows the code:

- `Add` and `Subtract` copy `a` and loop over `b`. The result therefore has the length of `a`, and any `b` no longer than `a` is accepted. Equal lengths are not required.
- `Constrain` indexes the bounds by the coordinates of `theta`. Any number of bounds at least `len(theta)` is accepted.
- A gain sequence's `k`-th value, for `k` from 1, is `a / (k + A)^alpha`. The doc comment's `(k + 1 + A)` is the same value with `k` counted from 0. `Gains.StandardAkReceives` proves this.
- In a round, the code draws the `n` perturbation samples first, then receives `c_k` inside the gradient estimate, then receives `a_k`. The model keeps one cursor per stream, so it records only the order within each stream. The assumptions this rests on are listed under "Left out".
- The mean square of `[1, 2, 3, 4, 5]` is 11, not 13 (see Findings).

## Model

| member | source | states |
|---|---|---|
| Vectors.Copy | vector.go:12-18 | the copy has the length of `a` and agrees with it at every index |
| Vectors.CopyIsIndependent | vector.go:12-18 | writing into a copy changes only that index of the copy; the original is untouched |
| Vectors.Scale | vector.go:21-27 | same length, `a[i] * s` at every index |
| Vectors.ScaleByOne | vector.go:21-27 | scaling by 1 is the identity |
| Vectors.ScaleCompose | vector.go:21-27 | scaling by `s` then `t` is scaling by `s * t` |
| Vectors.Add | vector.go:30-36 | needs `len(b) <= len(a)`; length of `a`; `a[i] + b[i]` below `len(b)`; `a[i]` beyond |
| Vectors.Subtract | vector.go:39-45 | needs `len(b) <= len(a)`; length of `a`; `a[i] - b[i]` below `len(b)`; `a[i]` beyond |
| Vectors.SubtractSelf | vector.go:39-45 | `a - a` is the zero vector of `len(a)` |
| Vectors.AddThenSubtract | vector.go:30-45 | subtracting `b` undoes adding it |
| Vectors.SubtractIsAddNegated | vector.go:30-45 | subtracting `b` is adding `-1 * b` |
| Vectors.AddCommutes | vector.go:30-36 | for equal lengths the operands of `Add` commute |
| Vectors.Sum | vector.go:48-53 | the reference left fold: the empty sum is 0, and each element is added after the total of those before it |
| Vectors.SumAppend | vector.go:48-53 | the sum of a concatenation is the sum of the sums; with `[x]` this is the left-fold step `Sum(s + [x]) = Sum(s) + x` |
| Vectors.SumCons | vector.go:48-53 | folding from the front agrees with the left fold |
| Vectors.SumScale | vector.go:48-53 | the sum is linear in a scale factor |
| Vectors.SumAdd | vector.go:48-53 | the sum of an element-wise sum is the sum of the sums |
| Vectors.SumFill | vector.go:48-53 | `n` copies of `c` sum to `n * c` |
| Vectors.SumMonotone | vector.go:48-53 | element-wise smaller vectors have smaller sums |
| Vectors.SumStrictlyMonotone | vector.go:48-53 | strictly smaller elements give a strictly smaller sum |
| Vectors.SumNonNegative | vector.go:48-53 | non-negative terms give a non-negative sum, zero exactly when every term is |
| Vectors.Mean | vector.go:56-58 | for a non-empty vector, the mean times the number of elements gives back the sum |
| Vectors.MeanWithinRange | vector.go:56-58 | the mean of a non-empty vector lies between its smallest and largest element |
| Vectors.MeanOfFill | vector.go:56-58 | the mean of a constant vector is the constant |
| Vectors.MeanSquare | vector.go:71-76 | the mean of the squares of a non-empty vector is never negative |
| Vectors.MeanSquareOfFill | vector.go:71-76 | the mean square of a constant vector is the constant squared |
| Vectors.Var | vector.go:61-68 | the Bessel-corrected variance is never negative; for the empty vector the loop adds nothing and the result is 0 |
| Vectors.VarOfFill | vector.go:61-68 | a constant vector of any length other than 1 has variance zero |
| Vectors.Join | vector.go:80-85 | the reference join: empty for no parts, starting with the first part and ending with the last |
| Vectors.Render | vector.go:79-87 | the reference text: `[` and `]` around the join, the first element's text right after `[`, the last one's right before `]`, and `"[]"` for the empty vector |
| Vectors.String | vector.go:79-87 | the accumulate-and-separate loop yields `"[" + parts joined by "," + "]"` |
| Vectors.JoinSeparators | vector.go:80-85 | comma-free parts are joined with exactly one comma between neighbours and none trailing |
| Vectors.RenderShape | vector.go:79-87 | the text starts with `[`, ends with `]`, holds `len - 1` commas, and is `"[]"` for the empty vector |
| Streams.Pull | spsa.go:79 | one receive yields the value under the cursor and moves the cursor by one |
| Streams.Take | spsa.go:166-172 | `n` receives yield the next `n` values in order and move the cursor `n` places |
| Streams.TakeSplit | spsa.go:166-172 | reading `m` values and then `n` more is reading `m + n` values |
| Streams.NonZeroAfterSkip | spsa.go:14-16 | a sequence non-zero from its cursor on stays so after any number of reads |
| Gains.Gain | spsa.go:148 | the gain times the power `(k + A)^alpha` gives back the scale; a zero power yields 0 in the model |
| Gains.StandardAk | spsa.go:144-152 | the sequence starts at `k = 1` and its value at `k` is `a / (k + A)^alpha` |
| Gains.StandardCk | spsa.go:159-161 | `StandardCk(c, gamma)` has the values of `StandardAk(c, 0, gamma)` |
| Gains.GainPositive | spsa.go:147-148 | for `k >= 1` and `A > -1` the gain is positive for a positive scale, non-zero for a non-zero one |
| Gains.GainDecreasing | spsa.go:147-148 | for a positive scale and exponent a later gain is strictly smaller than every earlier one |
| Gains.StandardAkReceives | spsa.go:139-152 | the `j`-th value received, counting from 0, is `a / (j + 1 + A)^alpha` |
| Gains.StandardAkPositiveDecreasing | spsa_test.go:136-146 | every received value is positive and smaller than each value received before it (stronger than the test, which compares with the first value only) |
| Gains.StandardAkPositive | spsa.go:144-152 | with `a > 0` and `A > -1` every value from the cursor on is positive |
| Gains.StandardCkNonZero | spsa.go:159-161 | a non-zero `c` keeps every `c_k` non-zero |
| Perturbation.SampleN | spsa.go:166-172 | `n` samples, the `i`-th from the `i`-th draw, and the draws cursor moved `n` places |
| Perturbation.SampleNNeverZero | spsa.go:166-172 | a distribution that never yields zero gives a sample vector with no zero component |
| Perturbation.BernoulliSample | spsa.go:179-185 | the sample is `r` or `-r`, and for `r != 0` it is `r` exactly when the draw exceeds one half |
| Perturbation.BernoulliDistribution | spsa.go:179-185 | the distribution answers `r` for every draw above one half and `-r` for every other draw |
| Perturbation.BernoulliNeverZero | spsa.go:174-185 | every sample has magnitude `abs(r)`, so none is zero when `r != 0` |
| Perturbation.Copysign | spsa.go:195 | the magnitude of the first argument with the sign of the second |
| Perturbation.Along | spsa.go:195 | `a + t w` lies at or beyond `a` for `t, w >= 0`, and within `[a, a + w]` for `t` in `[0, 1]` |
| Perturbation.SegmentedSampleAsWritten | spsa.go:193-196 | the sample as written has the magnitude of the offset `u - 0.5`, and for `0 <= a <= b` it is never negative |
| Perturbation.SegmentedAsWrittenCollapses | spsa.go:193-196 | for `0 < a < b` the written sample is `abs(u - 0.5)`: in `[0, 0.5]`, and zero at `u = 0.5` |
| Perturbation.SegmentedAsWrittenHitsZero | spsa_test.go:97-99 | the tested `SegmentedUniform{.5, 1.5}` yields zero for one draw, so it can make a round divide by zero |
| Perturbation.SegmentedSample | spsa.go:187-196 | the corrected sample: for `0 <= a <= b` and a draw in `[0, 1)` its magnitude is in `[a, b]`, and its sign is that of `u - 0.5` |
| Perturbation.SegmentedSampleInSupport | spsa.go:187-191 | the corrected sample lies in `[a, b] U [-b, -a]` with the sign of `u - 0.5` |
| Perturbation.SegmentedNeverZero | spsa.go:187-191 | the corrected distribution never yields zero |
| Constraints.Min | spsa.go:132 | `math.Min`: a lower bound of both arguments and equal to one of them |
| Constraints.Max | spsa.go:132 | `math.Max`: an upper bound of both arguments and equal to one of them |
| Constraints.NoConstraints | spsa.go:115-117 | the identity constraint returns its argument |
| Constraints.Clamp | spsa.go:132 | for ordered bounds the result is within them and unchanged exactly when the input was; for crossed bounds it is the upper bound |
| Constraints.Constrain | spsa.go:130-135 | needs a bound for every coordinate; keeps the length and clamps every coordinate into its own bounds |
| Constraints.ConstrainFeasible | spsa.go:130-135 | with ordered bounds the result is feasible |
| Constraints.ConstrainFixesExactlyFeasible | spsa.go:130-135 | with ordered bounds the vectors left unchanged are exactly the feasible ones |
| Constraints.ConstrainIdempotent | spsa.go:130-135 | constraining twice is constraining once |
| Constraints.ConstrainIsNearest | spsa.go:130-135 | no feasible vector is closer to `theta` in any coordinate than the result |
| Constraints.ConstrainExample | spsa_test.go:81-89 | the bounds `{0,10},{5,10},{-5,0},{0,5},{0,5}` map `[1,2,3,4,5]` to `[1,5,0,4,5]` |
| Engine.ApplyConstraint | spsa.go:84-85 | bounded constraints succeed exactly when there is a bound per coordinate, and otherwise report the length; the others always succeed |
| Engine.ApplyConstraintKeepsLength | spsa.go:84-85 | a length-preserving, applicable constraint succeeds and keeps the length |
| Engine.Secant | spsa.go:106 | the component times the probe spacing `2 delta[i]` gives back the loss difference |
| Engine.Perturb | spsa.go:93 | `delta[i]` is the `i`-th sample times the current `c_k`; one `Ck` value and `len(Theta)` draws are consumed |
| Engine.Gradient | spsa.go:104-109 | one component per perturbation component, each the secant slope along it |
| Engine.EstimateGradient | spsa.go:89-110 | succeeds exactly when no perturbation component is zero, else names the first zero one; the loss is taken at `Theta + delta` and `Theta - delta` and the estimate is built from those two values |
| Engine.EstimateGradientFault | spsa.go:104-107 | a failure names a zero component with no zero component before it |
| Engine.EstimateGradientSecant | spsa.go:104-109 | the estimate has `len(Theta)` components, each consistent with the two loss values |
| Engine.EstimateGradientAdvances | spsa.go:89-93 | the estimate leaves `Theta` and `Ak` alone and consumes one `Ck` value and `len(Theta)` draws |
| Engine.ProbesSymmetric | spsa.go:95-101 | the two probes are centred on `Theta` and `2 delta` apart |
| Engine.Round | spsa.go:77-86 | a round moves each gain cursor by one and the draws cursor by `len(Theta)`, and keeps loss, distribution and constraint |
| Engine.RoundCommits | spsa.go:77-86 | a round succeeds exactly when the estimate and the constraint do, and commits `C(Theta - grad * a_k)` |
| Engine.Run | spsa.go:69-74 | no positive count leaves the state unchanged; `k` successful rounds move each gain cursor `k` places |
| Engine.RunSplit | spsa.go:69-74 | `m + n` rounds are `m` rounds followed by `n` (so `Run(k + 1)` is one round then `Run(k)`) |
| Engine.RunKeepsLength | spsa.go:69-85 | with a length-preserving constraint `Theta` keeps its length, and the draws consumed are `len(Theta)` per round |
| Engine.RunCursors | spsa.go:69-93 | after `k` rounds the gain cursors have moved `k` places and the draws cursor `k * len(Theta)` |
| Engine.RunFeasible | spsa.go:84-85 | with ordered bounds every state after at least one round is feasible |
| Engine.RunNeverFails | spsa.go:69-110 | a never-zero distribution, non-zero `c_k` and an applicable, length-preserving constraint make every run succeed |
| Engine.GoQuotient | spsa.go:59 | Go's integer division truncates toward zero: the remainder has the sign of the dividend and is smaller than the divisor |
| Engine.OptimizeState | spsa.go:51-63 | the starting state: `theta0`, both gain cursors at `k = 1`, `A = n / 10` truncated, alpha .602, gamma .101, the caller's loss, the `Bernoulli{1}` perturbation (every sample `+1` or `-1`), the first constraint given, and no constraint when none is given |
| Engine.Optimize | spsa.go:50-66 | a non-positive round count returns `theta0` unchanged |
| Engine.OptimizeSucceeds | spsa.go:50-66 | with `c != 0` and any first constraint that preserves length and is applicable, `Optimize` returns a vector of the starting length |
| Losses.AbsoluteSum | example_loss.go:8-13 | the absolute sum is never negative |
| Losses.AbsoluteSumZero | example_loss.go:8-13 | it is zero exactly at the zero vector, the empty vector included |
| Losses.AbsoluteSumNegated | example_loss.go:9-11 | negating every coordinate leaves it unchanged |
| Losses.AbsoluteSumTriangle | example_loss.go:8-13 | the absolute sum of a sum is at most the sum of the absolute sums |
| Losses.RosenbrockTerm | example_loss.go:17 | each pair's term is never negative |
| Losses.Rosenbrock | example_loss.go:15-20 | needs an even length; the loss is never negative |
| Losses.ComputeRosenbrock | example_loss.go:15-20 | the two-step loop over the pairs accumulates the pairwise sum from the first pair on |
| Losses.RosenbrockAtOnes | example_loss.go:15-20 | the all-ones vector of every even length has loss zero |
| SpsaExamples.OptimizeAbsoluteSum | spsa.go:50-66 | optimising the absolute sum without constraints never faults and keeps the starting length, for every `c != 0` |
| SpsaExamples.OptimizeAbsoluteSumTest | spsa_test.go:57-62 | the test's call (five ones, 1000 rounds, `a = 1`, `c = 0.1`) completes with a five-element vector, whatever the draws |
| Gains.GainAtNonPositiveBase | spsa.go:144-148 | at every index `k` with `k + A <= 0` a power satisfying `PowLaws` can be zero, and the gain is then 0; Go gives an infinity or NaN there |
| VectorExamples.CloseMeaning | vector_test.go:8-10 | the two-sided comparison is symmetric, means `abs(a - b) < eps`, and implies the written one |
| VectorExamples.CloseAsWrittenIsOneSided | vector_test.go:8-10 | the written comparison accepts 11 against 13 and rejects 13 against 11 |
| VectorExamples.CloseAsWrittenAcceptsWrongMeanSquare | vector_test.go:77-82 | the mean square of `[1,2,3,4,5]` is 11; the written comparison accepts it as 13 and the two-sided one does not |
| VectorExamples.ScaleExample | vector_test.go:24-33 | `[1,2,3,4,5]` scaled by 5 is `[5,10,15,20,25]` |
| VectorExamples.AddSubtractExample | vector_test.go:35-61 | `[1,2,3,4,5]` plus `[5,4,3,2,1]` is all sixes, and minus it is `[-4,-2,0,2,4]` |
| VectorExamples.SumMeanExample | vector_test.go:63-75 | `[1,2,3,4,5.6]` sums to 15.6 and `[1.1,2,2.9]` has mean 2 |

## Left out

- Goroutines and channels: the producer goroutine of a gain sequence (spsa.go:145-151) is replaced by a function from index to value read through a cursor (`Streams.Stream`).
- `math/rand`: the uniform draws are an input stream, so the model states what a round does with any draws, not how they are distributed.
- IEEE-754 arithmetic: `float64` is `real`, so there is no rounding, overflow, NaN, infinity or signed zero.
- `math.Pow`: there is no real exponentiation in Dafny. Gains take the power function as a parameter, and their properties assume positivity and monotonicity in the base (`Gains.PowLaws`). `Gains.PowLawsSatisfiable` shows these assumptions are consistent.
- `fmt.Sprintf("%.2f")`: the per-element formatter of `String` is a parameter. Only the brackets and separators are modelled, so the digits of the `String` test are not reproduced.
- Statistical tests (spsa_test.go:40-69, 101-124): convergence of whole runs and moment bounds over random samples are claims about probability, not about any single execution.
- Gains.Gain: a zero power makes Go divide by zero. That gives NaN for a zero scale and an infinity otherwise. The model yields 0 instead. For `A > -1`, the hypothesis of `Gains.GainPositive`, every base `k + A` the sequences read is positive and `PowLaws` rules a zero power out. Go accepts any `A` (spsa.go:144). For `A <= -1` every base with `k <= -A` is non-positive, and `PowLaws` leaves the power there open (`Gains.GainAtNonPositiveBase`). In Go, a zero base (`k + A == 0`, possible only for an integer `A`) gives `math.Pow(0, alpha) == 0` for `alpha > 0`, so spsa.go:148 divides by zero and yields an infinity or NaN. A negative base with a non-integer alpha (`Optimize` uses .602 and .101) makes `math.Pow` NaN, so the gain is NaN without any division by zero. At those indices the model's gain is whatever `Gain` gives for the unconstrained value of `pow`.
- Vectors.Mean: requires a non-empty vector; Go gives NaN for the empty one.
- Vectors.MeanSquare: requires a non-empty vector, because Go gives NaN for the empty one. The zero-exactly-at-the-zero-vector direction is not stated.
- Vectors.Var: requires a length other than 1, because for one element Go computes `0 / 0`, which is NaN. For the empty vector the loop never runs and Go returns `0 / -1`, a negative zero; the model returns 0. The zero-exactly-for-constant-vectors direction is not stated; only `Vectors.VarOfFill` is proved.
- Constraints.Constrain: Go writes the clamped values into its argument. The model returns a new vector, which is the same thing for `round`, because `round` only constrains the fresh result of `Subtract`.
- Zero perturbation components: Go does not stop at a zero perturbation component. spsa.go:106 divides `fpos - fneg` by zero in that coordinate, and the infinite or NaN component flows on. When `fpos != fneg` the component is an infinity. Without constraints it leaves an infinity in theta. With `BoundedConstraints`, `math.Min`/`math.Max` clamp it to a bound (spsa.go:132), and Go continues with finite values. When `fpos == fneg` the component is NaN. This happens, for instance, when every perturbation component is zero, so that both probes are theta itself. `math.Max` and `math.Min` return NaN for a NaN argument, so the clamp keeps it, and that coordinate of theta is NaN in every later round. The model stops with `ZeroPerturbation` in every case.
- Losses.Rosenbrock: requires an even length, because Go panics on the index `v[i+1]` otherwise. So it is not a total `Engine.Loss` and cannot be passed to `Engine.Optimize`; the Rosenbrock optimisation of spsa_test.go:64-69 is not modelled. `SpsaExamples.OptimizeAbsoluteSum` connects the absolute sum to `Optimize`. The claim that the all-ones vector is the only zero is not stated.
- Custom constraints: a caller-supplied constraint is an arbitrary function. The properties that need it to preserve length say so with `Engine.KeepsLength`.
- The order of the `Ck` receive, the `Ak` receive and the draws within a round is not modelled. The model keeps one stream per source, which rests on three assumptions:
  - `Ak` and `Ck` are distinct channels. Go allows both fields to be the same channel, and then the two gains of a round would be consecutive values of one sequence.
  - The loss `L` is a deterministic function of its argument. A noisy loss that draws from the process-wide `math/rand` source would interleave its draws with the perturbation draws.
  - The draws stream is the subsequence of `math/rand` values that `Delta` consumes, one per sample. Draws that other code makes in between are not modelled.
- Unset fields: every field of the SPSA state is assumed set. In Go, a struct literal without `C` panics at the constraint call (spsa.go:85), because only `Optimize` defaults to `NoConstraints` (spsa.go:51-54). A nil `Ak` or `Ck` channel blocks forever on receive (spsa.go:79, spsa.go:93), and a nil `Delta` panics when sampled (spsa.go:169).
- `SegmentedUniform` is not used by `Optimize`, which always uses `Bernoulli{1}`. Both the written and the documented form are modelled, for the finding below.

## Findings

| source | as written | input that shows it | evidently intended | confidence | as-written member | corrected member |
|---|---|---|---|---|---|---|
| vector_test.go:8-10 | `close(a, b, eps)` checks only `a - b < eps`, so the `MeanSquare` test at vector_test.go:77-82 accepts the code's 11 against the wrong expected 13 | `close(11, 13, 0.0001)` is true | `abs(a - b) < eps`, which rejects 11 against 13 | high; not executed | VectorExamples.CloseAsWrittenAcceptsWrongMeanSquare | VectorExamples.CloseMeaning |
| spsa.go:193-196 | `math.Copysign(r, ...)` takes the magnitude from `r = u - 0.5` and the sign from the always-positive stretched value, so samples lie in `[0, 0.5]`, never negative | the draw `u = 0.5` gives 0 for `SegmentedUniform{.5, 1.5}`, and a round would divide by it | `math.Copysign(abs(r) * 2 * (b - a) + a, r)`: samples in `[a, b] U [-b, -a]` | high; not executed | Perturbation.SegmentedAsWrittenCollapses | Perturbation.SegmentedSampleInSupport |

=== FILE: constraints.dfy ===
/** The constraint step of SPSA (spsa.go, `NoConstraints` and
    `BoundedConstraints.Constrain`): after each update the parameter vector is
    mapped back into the feasible region. Go's `Constrain` overwrites its argument
    in place and returns it; SPSA only ever applies it to the fresh vector that
    `Subtract` has just produced, so the model returns a new sequence instead. */
module Constraints {
  import opened Vectors

  /** A lower and an upper bound on one coordinate. */
  datatype Bounds = Bounds(lower: real, upper: real)

  /** One pair of bounds per coordinate. */
  type BoundedConstraints = seq<Bounds>

  /** `math.Min` and `math.Max` on reals (no NaN, no signed zero). */
  function Min(x: real, y: real): (m: real)
    ensures m <= x && m <= y
    ensures m == x || m == y
  {
    if x <= y then x else y
  }

  function Max(x: real, y: real): (m: real)
    ensures x <= m && y <= m
    ensures m == x || m == y
  {
    if x <= y then y else x
  }

  /** The identity constraint. */
  function NoConstraints(theta: Vector): (r: Vector)
    ensures r == theta
  {
    theta
  }

  predicate InBounds(t: real, b: Bounds)
  {
    b.lower <= t <= b.upper
  }

  /** `min(max(t, lower), upper)`. For sensible bounds the result is inside them,
      and it is `t` itself exactly when `t` already was; for crossed bounds the
      upper bound wins. */
  function Clamp(t: real, b: Bounds): (x: real)
    ensures b.lower <= b.upper ==> InBounds(x, b)
    ensures b.lower <= b.upper ==> (x == t <==> InBounds(t, b))
    ensures b.upper < b.lower ==> x == b.upper
  {
    Min(Max(t, b.lower), b.upper)
  }

  /** Go indexes `bc[i]` for every index of `theta`, so fewer bounds than
      coordinates is an index panic; the caller must supply enough. */
  function Constrain(bc: BoundedConstraints, theta: Vector): (r: Vector)
    requires |theta| <= |bc|
    ensures |r| == |theta|
    ensures forall i :: 0 <= i < |theta| ==> r[i] == Clamp(theta[i], bc[i])
  {
    seq(|theta|, i requires 0 <= i < |theta| => Clamp(theta[i], bc[i]))
  }

  /** Every pair of bounds is ordered, lower first. */
  predicate Ordered(bc: BoundedConstraints)
  {
    forall i :: 0 <= i < |bc| ==> bc[i].lower <= bc[i].upper
  }

  /** `theta` has bounds for every coordinate and lies within them. */
  predicate Feasible(bc: BoundedConstraints, theta: Vector)
  {
    |theta| <= |bc| && forall i :: 0 <= i < |theta| ==> InBounds(theta[i], bc[i])
  }

  /** With ordered bounds the result is always feasible. */
  lemma ConstrainFeasible(bc: BoundedConstraints, theta: Vector)
    requires Ordered(bc) && |theta| <= |bc|
    ensures Feasible(bc, Constrain(bc, theta))
  {
  }

  /** With ordered bounds, the vectors left unchanged are exactly the feasible
      ones. */
  lemma ConstrainFixesExactlyFeasible(bc: BoundedConstraints, theta: Vector)
    requires Ordered(bc) && |theta| <= |bc|
    ensures Constrain(bc, theta) == theta <==> Feasible(bc, theta)
  {
    if Constrain(bc, theta) == theta {
      forall i | 0 <= i < |theta|
        ensures InBounds(theta[i], bc[i])
      {
        assert Constrain(bc, theta)[i] == theta[i];
      }
    }
  }

  /** Constraining twice is constraining once, even for crossed bounds. */
  lemma ConstrainIdempotent(bc: BoundedConstraints, theta: Vector)
    requires |theta| <= |bc|
    ensures Constrain(bc, Constrain(bc, theta)) == Constrain(bc, theta)
  {
  }

  /** With ordered bounds each coordinate moves to the nearest point of its
      interval: no feasible vector is closer to `theta` in any coordinate. */
  lemma ConstrainIsNearest(bc: BoundedConstraints, theta: Vector, y: Vector)
    requires Ordered(bc) && |theta| <= |bc|
    requires |y| == |theta| && Feasible(bc, y)
    ensures forall i :: 0 <= i < |theta| ==>
      Abs(Constrain(bc, theta)[i] - theta[i]) <= Abs(y[i] - theta[i])
  {
  }

  /** The bounded-constraints test: bounds {0,10}, {5,10}, {-5,0}, {0,5}, {0,5}
      applied to [1, 2, 3, 4, 5] give [1, 5, 0, 4, 5]. */
  lemma ConstrainExample()
    ensures Constrain([Bounds(0.0, 10.0), Bounds(5.0, 10.0), Bounds(-5.0, 0.0), Bounds(0.0, 5.0), Bounds(0.0, 5.0)],
                      [1.0, 2.0, 3.0, 4.0, 5.0])
         == [1.0, 5.0, 0.0, 4.0, 5.0]
  {
    var r := Constrain([Bounds(0.0, 10.0), Bounds(5.0, 10.0), Bounds(-5.0, 0.0), Bounds(0.0, 5.0), Bounds(0.0, 5.0)],
                       [1.0, 2.0, 3.0, 4.0, 5.0]);
    assert r[0] == 1.0 && r[1] == 5.0 && r[2] == 0.0 && r[3] == 4.0 && r[4] == 5.0;
  }
}

=== FILE: engine.dfy ===
/** The SPSA iteration itself (spsa.go: `SPSA`, `estimateGradient`, `round`, `Run`,
    `Optimize`). The Go struct is mutated in place by each round; here a round is a
    function from one state to the next. Receiving from a gain channel is a `Pull`
    on a `Stream`, and the uniform draws behind the perturbation samples are a
    `Stream` too.

    Go divides by every perturbation component. A zero component gives an IEEE
    infinity (or NaN, when both probes give the same loss) there, which Go carries
    on with: bounded constraints clamp an infinity back to a bound but keep a NaN.
    The model reports it as `ZeroPerturbation` instead.
    Bounded constraints with fewer bounds than coordinates make Go panic on an
    index; the model reports `MissingBounds`. */
module Engine {
  import opened Vectors
  import opened Streams
  import opened Constraints
  import opened Perturbation
  import opened Gains

  type Loss = Vector -> real

  /** The constraint functions SPSA is given: `NoConstraints`, the `Constrain` of a
      `BoundedConstraints`, or any other function on vectors. */
  datatype Constraint =
    | Unconstrained
    | Bounded(bc: BoundedConstraints)
    | Custom(f: Vector -> Vector)

  datatype Fault =
    | ZeroPerturbation(index: nat)
    | MissingBounds(length: nat)

  datatype Result<T> = Ok(value: T) | Err(fault: Fault)

  /** The fields of Go's `SPSA`, plus the source of uniform draws. */
  datatype Spsa = Spsa(
    theta: Vector,
    loss: Loss,
    ak: Stream,
    ck: Stream,
    delta: Distribution,
    constraint: Constraint,
    rng: Stream)

  // ---------------------------------------------------------------------------
  // Constraint step

  function ApplyConstraint(c: Constraint, theta: Vector): (r: Result<Vector>)
    ensures c.Bounded? ==> (r.Ok? <==> |theta| <= |c.bc|)
    ensures c.Bounded? && r.Err? ==> r.fault == MissingBounds(|theta|)
    ensures !c.Bounded? ==> r.Ok?
  {
    match c
    case Unconstrained => Ok(NoConstraints(theta))
    case Bounded(bc) => if |theta| <= |bc| then Ok(Constrain(bc, theta)) else Err(MissingBounds(|theta|))
    case Custom(f) => Ok(f(theta))
  }

  /** The constraint maps every vector to one of the same length. */
  ghost predicate KeepsLength(c: Constraint)
  {
    c.Custom? ==> forall v :: |c.f(v)| == |v|
  }

  /** The constraint can be applied to every vector of length `n`. */
  predicate Applicable(c: Constraint, n: nat)
  {
    c.Bounded? ==> n <= |c.bc|
  }

  lemma ApplyConstraintKeepsLength(c: Constraint, theta: Vector)
    requires KeepsLength(c) && Applicable(c, |theta|)
    ensures ApplyConstraint(c, theta).Ok?
    ensures |ApplyConstraint(c, theta).value| == |theta|
  {
  }

  // ---------------------------------------------------------------------------
  // Gradient estimate

  lemma HalfQuotient(f: real, d: real)
    requires d != 0.0
    ensures (f / (2.0 * d)) * (2.0 * d) == f
  {
  }

  /** The slope `f / (2d)` of the secant through two probes `2d` apart whose losses
      differ by `f`: times the spacing it gives back the difference. */
  function Secant(f: real, d: real): (g: real)
    requires d != 0.0
    ensures g * (2.0 * d) == f
  {
    HalfQuotient(f, d);
    f / (2.0 * d)
  }

  /** The index of the first zero of `v`, or `|v|` when there is none. */
  function FirstZero(v: Vector): (k: nat)
    ensures k <= |v|
    ensures forall i :: 0 <= i < k ==> v[i] != 0.0
    ensures k < |v| ==> v[k] == 0.0
    decreases |v|
  {
    if |v| == 0 then 0
    else if v[0] == 0.0 then 0
    else 1 + FirstZero(v[1..])
  }

  /** The draws of one perturbation: `SampleN(len(Theta), Delta)` first, then one
      receive from `Ck`, and the samples scaled by it. */
  datatype Draw = Draw(delta: Vector, ck: Stream, rng: Stream)

  function Perturb(s: Spsa): (p: Draw)
    ensures |p.delta| == |s.theta|
    ensures forall i :: 0 <= i < |s.theta| ==>
      p.delta[i] == s.delta(s.rng.at(s.rng.pos + i)) * s.ck.at(s.ck.pos)
    ensures p.ck == Skip(s.ck, 1)
    ensures p.rng == Skip(s.rng, |s.theta|)
  {
    var (samples, rng) := SampleN(|s.theta|, s.delta, s.rng);
    var (c, ck) := Pull(s.ck);
    Draw(Scale(samples, c), ck, rng)
  }

  /** What one gradient estimate computes: the perturbation, the two probes and
      their losses, the estimate, and the state with its cursors advanced. */
  datatype Estimate = Estimate(
    grad: Vector,
    delta: Vector,
    tpos: Vector,
    fpos: real,
    tneg: Vector,
    fneg: real,
    state: Spsa)

  /** Each component of the estimate is the secant slope along that component's
      perturbation. */
  function Gradient(fdiff: real, delta: Vector): (g: Vector)
    requires forall i :: 0 <= i < |delta| ==> delta[i] != 0.0
    ensures |g| == |delta|
    ensures forall i :: 0 <= i < |delta| ==> g[i] * (2.0 * delta[i]) == fdiff
  {
    seq(|delta|, i requires 0 <= i < |delta| => Secant(fdiff, delta[i]))
  }

  /** `estimateGradient`: the loss is evaluated at `Theta + delta` and then at
      `Theta - delta`, and the estimate is the secant slope along each
      perturbation component. It fails exactly when some perturbation component
      is zero, and then names the first one. */
  function EstimateGradient(s: Spsa): (r: Result<Estimate>)
    ensures r.Ok? <==> forall i :: 0 <= i < |s.theta| ==> Perturb(s).delta[i] != 0.0
    ensures r.Err? ==> r.fault == ZeroPerturbation(FirstZero(Perturb(s).delta))
    ensures r.Ok? ==>
      && r.value.delta == Perturb(s).delta
      && r.value.tpos == Add(s.theta, r.value.delta)
      && r.value.tneg == Subtract(s.theta, r.value.delta)
      && r.value.fpos == s.loss(r.value.tpos)
      && r.value.fneg == s.loss(r.value.tneg)
      && r.value.grad == Gradient(r.value.fpos - r.value.fneg, r.value.delta)
      && r.value.state == s.(ck := Perturb(s).ck, rng := Perturb(s).rng)
  {
    var p := Perturb(s);
    var k := FirstZero(p.delta);
    if k < |p.delta| then
      Err(ZeroPerturbation(k))
    else
      var tpos := Add(s.theta, p.delta);
      var fpos := s.loss(tpos);
      var tneg := Subtract(s.theta, p.delta);
      var fneg := s.loss(tneg);
      Ok(Estimate(Gradient(fpos - fneg, p.delta), p.delta, tpos, fpos, tneg, fneg, s.(ck := p.ck, rng := p.rng)))
  }

  /** A failed estimate names a zero perturbation component, and no earlier
      component is zero. */
  lemma EstimateGradientFault(s: Spsa)
    requires EstimateGradient(s).Err?
    ensures EstimateGradient(s).fault.index < |s.theta|
    ensures Perturb(s).delta[EstimateGradient(s).fault.index] == 0.0
    ensures forall i :: 0 <= i < EstimateGradient(s).fault.index ==> Perturb(s).delta[i] != 0.0
  {
  }

  /** A successful estimate has a component for every coordinate, and each,
      multiplied by the spacing of its probes, gives back the loss difference. */
  lemma EstimateGradientSecant(s: Spsa)
    requires EstimateGradient(s).Ok?
    ensures |EstimateGradient(s).value.grad| == |s.theta|
    ensures var e := EstimateGradient(s).value;
      forall i :: 0 <= i < |s.theta| ==> e.grad[i] * (2.0 * e.delta[i]) == e.fpos - e.fneg
  {
  }

  /** A successful estimate leaves `Theta` and `Ak` as they were and consumes one
      `Ck` value and `len(Theta)` draws. */
  lemma EstimateGradientAdvances(s: Spsa)
    requires EstimateGradient(s).Ok?
    ensures EstimateGradient(s).value.state.theta == s.theta
    ensures EstimateGradient(s).value.state.ak == s.ak
    ensures EstimateGradient(s).value.state.ck == Skip(s.ck, 1)
    ensures EstimateGradient(s).value.state.rng == Skip(s.rng, |s.theta|)
  {
  }

  /** The two probes are symmetric about `Theta`: their midpoint is `Theta` and
      they are `2 delta` apart. */
  lemma ProbesSymmetric(s: Spsa)
    requires EstimateGradient(s).Ok?
    ensures forall i :: 0 <= i < |s.theta| ==>
      var e := EstimateGradient(s).value;
      && (e.tpos[i] + e.tneg[i]) / 2.0 == s.theta[i]
      && e.tpos[i] - e.tneg[i] == 2.0 * e.delta[i]
  {
  }

  // ---------------------------------------------------------------------------
  // Rounds

  /** One round: estimate the gradient (one receive from `Ck`), then receive one
      `Ak`, step against the scaled gradient, and constrain the result. */
  function Round(s: Spsa): (r: Result<Spsa>)
    ensures r.Ok? ==>
      && r.value.ak == Skip(s.ak, 1)
      && r.value.ck == Skip(s.ck, 1)
      && r.value.rng == Skip(s.rng, |s.theta|)
      && r.value.loss == s.loss && r.value.delta == s.delta
      && r.value.constraint == s.constraint
  {
    match EstimateGradient(s)
    case Err(f) => Err(f)
    case Ok(e) =>
      var (a, ak) := Pull(e.state.ak);
      var next := Subtract(e.state.theta, Scale(e.grad, a));
      match ApplyConstraint(s.constraint, next)
      case Err(f) => Err(f)
      case Ok(theta) => Ok(e.state.(theta := theta, ak := ak))
  }

  /** A successful round commits `C(Theta - grad * a_k)`, where `a_k` is the value
      under the `Ak` cursor; it fails only on a zero perturbation or missing
      bounds. */
  lemma RoundCommits(s: Spsa)
    ensures Round(s).Ok? <==>
      EstimateGradient(s).Ok?
      && ApplyConstraint(s.constraint, s.theta).Ok?
    ensures Round(s).Ok? ==>
      var e := EstimateGradient(s).value;
      Round(s).value.theta
        == ApplyConstraint(s.constraint, Subtract(s.theta, Scale(e.grad, s.ak.at(s.ak.pos)))).value
    ensures Round(s).Err? && EstimateGradient(s).Ok? ==>
      Round(s).fault == MissingBounds(|s.theta|)
  {
  }

  /** `Run(rounds)`: `rounds` rounds one after the other; no round at all when
      `rounds` is not positive. Each round receives one value from each gain
      sequence. */
  function Run(s: Spsa, rounds: int): (r: Result<Spsa>)
    ensures rounds <= 0 ==> r == Ok(s)
    ensures r.Ok? ==>
      && r.value.ak == Skip(s.ak, if rounds <= 0 then 0 else rounds)
      && r.value.ck == Skip(s.ck, if rounds <= 0 then 0 else rounds)
      && r.value.loss == s.loss && r.value.delta == s.delta
      && r.value.constraint == s.constraint
    decreases rounds
  {
    if rounds <= 0 then Ok(s)
    else
      match Round(s)
      case Err(f) => Err(f)
      case Ok(t) => Run(t, rounds - 1)
  }

  /** Running `m` rounds and then `n` more is running `m + n` rounds. */
  lemma {:induction false} RunSplit(s: Spsa, m: nat, n: nat)
    ensures Run(s, m + n) == match Run(s, m)
                             case Err(f) => Err(f)
                             case Ok(t) => Run(t, n)
    decreases m
  {
    if m > 0 {
      match Round(s)
      case Err(f) =>
      case Ok(t) =>
        RunSplit(t, m - 1, n);
    }
  }

  /** The draws consumed by `rounds` rounds of `n` coordinates each. This is
      `rounds * n` (`DrawsIsProduct`), written as a recursion so that the inductive
      proofs about `Run` stay free of non-linear arithmetic. */
  function Draws(rounds: nat, n: nat): nat
  {
    if rounds == 0 then 0 else Draws(rounds - 1, n) + n
  }

  lemma {:induction false} DrawsIsProduct(rounds: nat, n: nat)
    ensures Draws(rounds, n) == rounds * n
    decreases rounds
  {
    if rounds > 0 {
      DrawsIsProduct(rounds - 1, n);
    }
  }

  /** With a length-preserving constraint the parameter vector keeps its length, and
      every round consumes one uniform draw per coordinate. */
  lemma {:induction false} RunKeepsLength(s: Spsa, rounds: nat)
    requires KeepsLength(s.constraint)
    requires Run(s, rounds).Ok?
    ensures |Run(s, rounds).value.theta| == |s.theta|
    ensures Run(s, rounds).value.rng == Skip(s.rng, Draws(rounds, |s.theta|))
    decreases rounds
  {
    if rounds > 0 {
      var t := Round(s).value;
      RoundCommits(s);
      assert |t.theta| == |s.theta|;
      RunKeepsLength(t, rounds - 1);
    }
  }

  /** After `k` successful rounds both gain cursors have moved `k` places and the
      draws cursor `k * len(Theta)` places. */
  lemma RunCursors(s: Spsa, rounds: nat)
    requires KeepsLength(s.constraint)
    requires Run(s, rounds).Ok?
    ensures Run(s, rounds).value.ak.pos == s.ak.pos + rounds
    ensures Run(s, rounds).value.ck.pos == s.ck.pos + rounds
    ensures Run(s, rounds).value.rng.pos == s.rng.pos + rounds * |s.theta|
  {
    RunKeepsLength(s, rounds);
    DrawsIsProduct(rounds, |s.theta|);
  }

  /** With ordered bounds, every state reached after at least one round is
      feasible. */
  lemma {:induction false} RunFeasible(s: Spsa, rounds: nat)
    requires s.constraint.Bounded? && Ordered(s.constraint.bc)
    requires rounds >= 1 && Run(s, rounds).Ok?
    ensures Feasible(s.constraint.bc, Run(s, rounds).value.theta)
    decreases rounds
  {
    var t := Round(s).value;
    RoundCommits(s);
    var e := EstimateGradient(s).value;
    ConstrainFeasible(s.constraint.bc, Subtract(s.theta, Scale(e.grad, s.ak.at(s.ak.pos))));
    if rounds > 1 {
      RunFeasible(t, rounds - 1);
    }
  }

  /** A run cannot fail when the distribution never yields zero, the `Ck` values
      are non-zero from the cursor on, and the constraint keeps the length and has
      bounds for every coordinate. */
  lemma {:induction false} RunNeverFails(s: Spsa, rounds: int)
    requires NeverZero(s.delta) && NonZeroFrom(s.ck)
    requires KeepsLength(s.constraint) && Applicable(s.constraint, |s.theta|)
    ensures Run(s, rounds).Ok?
    decreases rounds
  {
    if rounds > 0 {
      var p := Perturb(s);
      assert s.ck.at(s.ck.pos) != 0.0;
      forall i | 0 <= i < |s.theta|
        ensures p.delta[i] != 0.0
      {
        var u := s.rng.at(s.rng.pos + i);
        NeverZeroAt(s.delta, u);
        var x := s.delta(u);
        assert p.delta[i] == x * s.ck.at(s.ck.pos);
        NonZeroProduct(x, s.ck.at(s.ck.pos));
      }
      RoundCommits(s);
      var t := Round(s).value;
      assert |t.theta| == |s.theta|;
      RunNeverFails(t, rounds - 1);
    }
  }

  lemma NonZeroProduct(x: real, y: real)
    requires x != 0.0 && y != 0.0
    ensures x * y != 0.0
  {
  }

  // ---------------------------------------------------------------------------
  // Optimize

  /** Go's integer division, which truncates toward zero. */
  function GoQuotient(x: int, d: int): (q: int)
    requires d > 0
    ensures 0 <= x ==> 0 <= x - q * d < d
    ensures x < 0 ==> -d < x - q * d <= 0
  {
    if 0 <= x then x / d else -((-x) / d)
  }

  /** `Optimize(L, theta0, n, a, c, C...)`: standard gains with `A = n / 10`,
      alpha = .602 and gamma = .101, Bernoulli +/- 1 perturbations, the first
      constraint given or none, and `n` rounds. */
  function OptimizeState(loss: Loss, theta0: Vector, n: int, a: real, c: real, pow: (real, real) -> real,
                         constraints: seq<Constraint>, rng: Stream): (s: Spsa)
    ensures s.theta == theta0 && s.rng == rng
    ensures s.ak.pos == 1 && s.ck.pos == 1
    ensures forall k: nat :: s.ak.at(k) == Gain(a, GoQuotient(n, 10) as real, 0.602, pow, k)
    ensures forall k: nat :: s.ck.at(k) == Gain(c, 0.0, 0.101, pow, k)
    ensures s.loss == loss
    ensures s.delta == BernoulliDistribution(Bernoulli(1.0))
    ensures forall u :: s.delta(u) == 1.0 || s.delta(u) == -1.0
    ensures |constraints| > 0 ==> s.constraint == constraints[0]
    ensures |constraints| == 0 ==> s.constraint.Unconstrained?
  {
    Spsa(theta0, loss,
         StandardAk(a, GoQuotient(n, 10) as real, 0.602, pow),
         StandardCk(c, 0.101, pow),
         BernoulliDistribution(Bernoulli(1.0)),
         if |constraints| > 0 then constraints[0] else Unconstrained,
         rng)
  }

  function Optimize(loss: Loss, theta0: Vector, n: int, a: real, c: real, pow: (real, real) -> real,
                    constraints: seq<Constraint>, rng: Stream): (r: Result<Vector>)
    ensures n <= 0 ==> r == Ok(theta0)
  {
    match Run(OptimizeState(loss, theta0, n, a, c, pow, constraints, rng), n)
    case Err(f) => Err(f)
    case Ok(t) => Ok(t.theta)
  }

  /** With a non-zero `c` and no constraint, or one that keeps lengths and has
      enough bounds, `Optimize` always returns a vector of the starting length. */
  lemma OptimizeSucceeds(loss: Loss, theta0: Vector, n: int, a: real, c: real, pow: (real, real) -> real,
                         constraints: seq<Constraint>, rng: Stream)
    requires PowLaws(pow) && c != 0.0
    requires |constraints| > 0 ==> KeepsLength(constraints[0]) && Applicable(constraints[0], |theta0|)
    ensures Optimize(loss, theta0, n, a, c, pow, constraints, rng).Ok?
    ensures |Optimize(loss, theta0, n, a, c, pow, constraints, rng).value| == |theta0|
  {
    var s := OptimizeState(loss, theta0, n, a, c, pow, constraints, rng);
    StandardCkNonZero(c, 0.101, pow);
    BernoulliNeverZero(Bernoulli(1.0));
    RunNeverFails(s, n);
    if n > 0 {
      RunKeepsLength(s, n);
    }
  }
}

=== FILE: gains.dfy ===
/** The standard-form gain sequences of SPSA (spsa.go, `StandardAk` and
    `StandardCk`). The k-th value, for k = 1, 2, ..., is `a / (k + A)^alpha`.

    Go computes the power with `math.Pow`. Dafny has no real exponentiation, so the
    power function is a parameter, and the two laws the properties rest on are
    stated by `PowLaws` and assumed as a precondition wherever they are used. */
module Gains {
  import opened Streams

  /** For a positive base, `x^e` is positive, and for a positive exponent it is
      strictly increasing in the base. */
  ghost predicate PowLaws(pow: (real, real) -> real)
  {
    && (forall x, e :: 0.0 < x ==> 0.0 < pow(x, e))
    && (forall x, y, e :: 0.0 < x < y && 0.0 < e ==> pow(x, e) < pow(y, e))
  }

  /** The laws are consistent: they do not make every lemma assuming them vacuous. */
  lemma PowLawsSatisfiable()
    ensures PowLaws((x, e) => if 0.0 < x then x else 1.0)
  {
  }

  lemma DividePositive(a: real, p: real)
    requires 0.0 < p
    ensures 0.0 < a ==> 0.0 < a / p
    ensures a != 0.0 ==> a / p != 0.0
  {
  }

  lemma DivideBack(a: real, p: real)
    ensures p != 0.0 ==> (a / p) * p == a
  {
  }

  lemma DivideByLarger(a: real, p: real, q: real)
    requires 0.0 < a && 0.0 < p < q
    ensures a / q < a / p
  {
  }

  /** The k-th gain `scale / (k + offset)^exponent`: times the power it gives back
      the scale. Dividing by a zero power is NaN or an infinity in Go, and the model
      yields 0 there. For `offset > -1` every base `k + offset` the sequences use is
      positive and the laws rule a zero power out; for `offset <= -1` the bases with
      `k <= -offset` are not positive and the laws leave their powers open
      (`GainAtNonPositiveBase`). */
  function Gain(scale: real, offset: real, exponent: real, pow: (real, real) -> real, k: nat): (g: real)
    ensures pow(k as real + offset, exponent) != 0.0 ==> g * pow(k as real + offset, exponent) == scale
    ensures pow(k as real + offset, exponent) == 0.0 ==> g == 0.0
  {
    var p := pow(k as real + offset, exponent);
    DivideBack(scale, p);
    if p == 0.0 then 0.0 else scale / p
  }

  /** `StandardAk(a, A, alpha)`: the gains read from k = 1 on. */
  function StandardAk(a: real, offset: real, alpha: real, pow: (real, real) -> real): (g: Stream)
    ensures g.pos == 1
    ensures forall k: nat :: g.at(k) == Gain(a, offset, alpha, pow, k)
  {
    Stream((k: nat) => Gain(a, offset, alpha, pow, k), 1)
  }

  /** `StandardCk(c, gamma)` is `StandardAk(c, 0, gamma)`. */
  function StandardCk(c: real, gamma: real, pow: (real, real) -> real): (g: Stream)
    ensures g.pos == 1
    ensures forall k: nat :: g.at(k) == Gain(c, 0.0, gamma, pow, k)
  {
    StandardAk(c, 0.0, gamma, pow)
  }

  /** A positive scale gives positive gains at every index the sequence reads. */
  lemma GainPositive(scale: real, offset: real, exponent: real, pow: (real, real) -> real, k: nat)
    requires PowLaws(pow)
    requires 1 <= k && -1.0 < offset
    ensures 0.0 < scale ==> 0.0 < Gain(scale, offset, exponent, pow, k)
    ensures scale != 0.0 ==> Gain(scale, offset, exponent, pow, k) != 0.0
  {
    var p := pow(k as real + offset, exponent);
    assert 0.0 < p;
    DividePositive(scale, p);
  }

  /** At a base `k + offset <= 0` the laws say nothing: a power that is the identity
      on positive bases and zero elsewhere satisfies them, and with it the gain at
      every such index is 0. Go's `math.Pow` is 0 at a zero base (a positive
      exponent), so the gain there is a division by zero, and NaN at a negative base
      with a non-integer exponent. */
  lemma GainAtNonPositiveBase(scale: real, offset: real, exponent: real, k: nat)
    requires k as real + offset <= 0.0
    ensures PowLaws((x: real, e: real) => if 0.0 < x then x else 0.0)
    ensures Gain(scale, offset, exponent, (x: real, e: real) => if 0.0 < x then x else 0.0, k) == 0.0
  {
  }

  /** For a positive scale and exponent the gains strictly decrease: a later gain is
      smaller than every earlier one. */
  lemma {:induction false} GainDecreasing(scale: real, offset: real, exponent: real, pow: (real, real) -> real, k: nat, m: nat)
    requires PowLaws(pow)
    requires 0.0 < scale && 0.0 < exponent && -1.0 < offset
    requires 1 <= k < m
    ensures Gain(scale, offset, exponent, pow, m) < Gain(scale, offset, exponent, pow, k)
    decreases m - k
  {
    var p := pow((m - 1) as real + offset, exponent);
    var q := pow(m as real + offset, exponent);
    assert 0.0 < p < q;
    DivideByLarger(scale, p, q);
    if k < m - 1 {
      GainDecreasing(scale, offset, exponent, pow, k, m - 1);
    }
  }

  /** The j-th value received (counting from 0) is `a / (j + 1 + A)^alpha`: the
      doc comment's `(k + 1 + A)` with k the number of values received before. */
  lemma StandardAkReceives(a: real, offset: real, alpha: real, pow: (real, real) -> real, n: nat)
    ensures forall j :: 0 <= j < n ==>
      Take(StandardAk(a, offset, alpha, pow), n).0[j]
        == Gain(a, offset, alpha, pow, j + 1)
    ensures forall j :: 0 <= j < n ==>
      Take(StandardAk(a, offset, alpha, pow), n).0[j]
        == (var p := pow(j as real + 1.0 + offset, alpha); if p == 0.0 then 0.0 else a / p)
  {
  }

  /** For a > 0, alpha > 0 and A > -1 the received values are positive, and each is
      smaller than every value received before it. This is stronger than the
      gain-sequence test, which compares each value only with the first one received
      and does not check that the first one is positive. */
  lemma StandardAkPositiveDecreasing(a: real, offset: real, alpha: real, pow: (real, real) -> real, n: nat)
    requires PowLaws(pow)
    requires 0.0 < a && 0.0 < alpha && -1.0 < offset
    ensures forall j :: 0 <= j < n ==> 0.0 < Take(StandardAk(a, offset, alpha, pow), n).0[j]
    ensures forall i, j :: 0 <= i < j < n ==>
      Take(StandardAk(a, offset, alpha, pow), n).0[j] < Take(StandardAk(a, offset, alpha, pow), n).0[i]
  {
    var g := StandardAk(a, offset, alpha, pow);
    var xs := Take(g, n).0;
    forall j | 0 <= j < n
      ensures 0.0 < xs[j]
    {
      GainPositive(a, offset, alpha, pow, j + 1);
    }
    forall i, j | 0 <= i < j < n
      ensures xs[j] < xs[i]
    {
      GainDecreasing(a, offset, alpha, pow, i + 1, j + 1);
    }
  }

  /** A standard sequence with a positive scale and an offset above -1 is positive
      from its cursor on, and stays so whatever has been read. */
  lemma StandardAkPositive(a: real, offset: real, alpha: real, pow: (real, real) -> real)
    requires PowLaws(pow)
    requires 0.0 < a && -1.0 < offset
    ensures PositiveFrom(StandardAk(a, offset, alpha, pow))
  {
    forall k: nat | 1 <= k
      ensures 0.0 < StandardAk(a, offset, alpha, pow).at(k)
    {
      GainPositive(a, offset, alpha, pow, k);
    }
  }

  /** A non-zero scale keeps every value of `StandardCk` non-zero, which is what
      keeps the perturbations of a round away from zero. */
  lemma StandardCkNonZero(c: real, gamma: real, pow: (real, real) -> real)
    requires PowLaws(pow)
    requires c != 0.0
    ensures NonZeroFrom(StandardCk(c, gamma, pow))
  {
    forall k: nat | 1 <= k
      ensures StandardCk(c, gamma, pow).at(k) != 0.0
    {
      GainPositive(c, 0.0, gamma, pow, k);
    }
  }
}

=== FILE: losses.dfy ===
/** The example loss functions (example_loss.go): the absolute sum, whose minimum
    is the zero vector, and the Rosenbrock function over consecutive pairs, whose
    minimum is the all-ones vector. */
module Losses {
  import opened Vectors

  /** Element-wise magnitudes. */
  function Magnitudes(v: Vector): (m: Vector)
    ensures |m| == |v|
    ensures forall i :: 0 <= i < |v| ==> m[i] == Abs(v[i])
  {
    seq(|v|, i requires 0 <= i < |v| => Abs(v[i]))
  }

  /** `AbsoluteSum`: Go adds `|v[i]|` from the first element to the last, which is
      the left fold `Sum` of the magnitudes. */
  function AbsoluteSum(v: Vector): (a: real)
    ensures 0.0 <= a
  {
    SumNonNegative(Magnitudes(v));
    Sum(Magnitudes(v))
  }

  /** The absolute sum vanishes exactly at the zero vector (the empty vector
      included). */
  lemma AbsoluteSumZero(v: Vector)
    ensures AbsoluteSum(v) == 0.0 <==> v == Zeros(|v|)
  {
    var m := Magnitudes(v);
    SumNonNegative(m);
    if AbsoluteSum(v) == 0.0 {
      forall i | 0 <= i < |v|
        ensures v[i] == 0.0
      {
        assert m[i] == 0.0;
      }
    }
    if v == Zeros(|v|) {
      assert forall i :: 0 <= i < |v| ==> m[i] == 0.0;
    }
  }

  /** Negating every coordinate leaves the absolute sum as it was. */
  lemma AbsoluteSumNegated(v: Vector)
    ensures AbsoluteSum(Scale(v, -1.0)) == AbsoluteSum(v)
  {
    assert Magnitudes(Scale(v, -1.0)) == Magnitudes(v);
  }

  /** The absolute sum of a sum is at most the sum of the absolute sums. */
  lemma AbsoluteSumTriangle(a: Vector, b: Vector)
    requires |a| == |b|
    ensures AbsoluteSum(Add(a, b)) <= AbsoluteSum(a) + AbsoluteSum(b)
  {
    SumMonotone(Magnitudes(Add(a, b)), Add(Magnitudes(a), Magnitudes(b)));
    SumAdd(Magnitudes(a), Magnitudes(b));
  }

  // ---------------------------------------------------------------------------
  // Rosenbrock

  /** The term of one pair: `100 (x^2 - y)^2 + (x - 1)^2`, never negative. */
  function RosenbrockTerm(x: real, y: real): (t: real)
    ensures 0.0 <= t
  {
    100.0 * Sq(Sq(x) - y) + Sq(x - 1.0)
  }

  /** Go reads `v[i + 1]` for every even `i`, so an odd length panics on an index:
      the length must be even. The terms are added from the first pair to the
      last. */
  function Rosenbrock(v: Vector): (a: real)
    requires |v| % 2 == 0
    ensures 0.0 <= a
    decreases |v|
  {
    if |v| == 0 then 0.0
    else Rosenbrock(v[..|v| - 2]) + RosenbrockTerm(v[|v| - 2], v[|v| - 1])
  }

  /** Go's loop over the pairs, two indices at a time, computes `Rosenbrock`. */
  method ComputeRosenbrock(v: Vector) returns (a: real)
    requires |v| % 2 == 0
    ensures a == Rosenbrock(v)
    ensures 0.0 <= a
  {
    a := 0.0;
    var i := 0;
    while i < |v|
      invariant 0 <= i <= |v| && i % 2 == 0
      invariant a == Rosenbrock(v[..i])
    {
      assert v[..i + 2][..i] == v[..i];
      a := a + RosenbrockTerm(v[i], v[i + 1]);
      i := i + 2;
    }
    assert v[..i] == v;
  }

  /** Each term vanishes at (1, 1). */
  lemma RosenbrockTermAtOne()
    ensures RosenbrockTerm(1.0, 1.0) == 0.0
  {
  }

  /** The all-ones vector of any even length is a minimum: the loss is zero there. */
  lemma {:induction false} RosenbrockAtOnes(pairs: nat)
    ensures Rosenbrock(Fill(2 * pairs, 1.0)) == 0.0
    decreases pairs
  {
    if pairs > 0 {
      var v := Fill(2 * pairs, 1.0);
      assert v[..|v| - 2] == Fill(2 * (pairs - 1), 1.0);
      RosenbrockAtOnes(pairs - 1);
      RosenbrockTermAtOne();
    }
  }
}

=== FILE: perturbation.dfy ===
/** Perturbation distributions (spsa.go, `SampleN`, `Bernoulli`, `SegmentedUniform`).
    A Go distribution draws from `math/rand` each time it is sampled; here a
    distribution maps one uniform draw in [0, 1) to a sample, and the draws come
    from a `Stream`. */
module Perturbation {
  import opened Streams
  import opened Vectors

  type Distribution = real -> real

  /** A distribution that never yields zero, whatever the draw. SPSA divides by
      every sample, so this is what the gradient estimate needs. */
  ghost predicate NeverZero(d: Distribution)
  {
    forall u :: d(u) != 0.0
  }

  lemma NeverZeroAt(d: Distribution, u: real)
    requires NeverZero(d)
    ensures d(u) != 0.0
  {
  }

  /** `SampleN(n, d)`: `n` samples, one draw each, in order. */
  function SampleN(n: nat, d: Distribution, rng: Stream): (r: (Vector, Stream))
    ensures |r.0| == n
    ensures forall i :: 0 <= i < n ==> r.0[i] == d(rng.at(rng.pos + i))
    ensures r.1 == Skip(rng, n)
  {
    var (us, rest) := Take(rng, n);
    (seq(n, i requires 0 <= i < n => d(us[i])), rest)
  }

  lemma SampleNNeverZero(n: nat, d: Distribution, rng: Stream)
    requires NeverZero(d)
    ensures forall i :: 0 <= i < n ==> SampleN(n, d, rng).0[i] != 0.0
  {
  }

  // ---------------------------------------------------------------------------
  // Bernoulli +/- r

  datatype Bernoulli = Bernoulli(r: real)

  /** A draw above one half gives `r`, any other draw `-r`. */
  function BernoulliSample(b: Bernoulli, u: real): (x: real)
    ensures x == b.r || x == -b.r
    ensures b.r != 0.0 ==> (x == b.r <==> 0.5 < u)
  {
    if u > 0.5 then b.r else -b.r
  }

  /** The distribution answers `r` for draws above one half and `-r` for the rest. */
  function BernoulliDistribution(b: Bernoulli): (d: Distribution)
    ensures forall u :: 0.5 < u ==> d(u) == b.r
    ensures forall u :: u <= 0.5 ==> d(u) == -b.r
  {
    u => BernoulliSample(b, u)
  }

  /** Every Bernoulli sample has magnitude `r`, so it is never zero unless `r` is. */
  lemma BernoulliNeverZero(b: Bernoulli)
    requires b.r != 0.0
    ensures NeverZero(BernoulliDistribution(b))
    ensures forall u :: Abs(BernoulliDistribution(b)(u)) == Abs(b.r)
  {
  }

  // ---------------------------------------------------------------------------
  // Segmented (mirrored) uniform on [a, b] U [-b, -a]

  datatype SegmentedUniform = SegmentedUniform(a: real, b: real)

  /** `math.Copysign(x, y)`: the magnitude of `x` with the sign of `y`. Reals have
      no negative zero, so a zero `y` counts as positive. */
  function Copysign(x: real, y: real): (r: real)
    ensures Abs(r) == Abs(x)
    ensures y < 0.0 ==> r <= 0.0
    ensures 0.0 <= y ==> 0.0 <= r
  {
    if y < 0.0 then -Abs(x) else Abs(x)
  }

  lemma ScaledFraction(t: real, w: real)
    requires 0.0 <= t && 0.0 <= w
    ensures 0.0 <= t * w
    ensures t <= 1.0 ==> t * w <= w
  {
  }

  lemma ScaledFractionWhenever(t: real, w: real)
    ensures 0.0 <= t && 0.0 <= w ==> 0.0 <= t * w
    ensures 0.0 <= t <= 1.0 && 0.0 <= w ==> t * w <= w
  {
    if 0.0 <= t && 0.0 <= w {
      ScaledFraction(t, w);
    }
  }

  /** The point a fraction `t` of the way along the segment from `a` of width `w`:
      beyond `a` for any non-negative fraction, and within the segment for a
      fraction in [0, 1]. */
  function Along(a: real, t: real, w: real): (m: real)
    ensures 0.0 <= t && 0.0 <= w ==> a <= m
    ensures 0.0 <= t <= 1.0 && 0.0 <= w ==> m <= a + w
  {
    ScaledFractionWhenever(t, w);
    t * w + a
  }

  /** The sample as the code computes it: the draw's offset `r = u - 0.5` gives the
      magnitude, and the stretched value `a + 2|r|(b - a)`, which is positive, gives
      the sign. */
  function SegmentedSampleAsWritten(su: SegmentedUniform, u: real): (x: real)
    ensures Abs(x) == Abs(u - 0.5)
    ensures 0.0 <= su.a <= su.b ==> 0.0 <= x
  {
    var r := u - 0.5;
    Copysign(r, Along(su.a, Abs(r) * 2.0, su.b - su.a))
  }

  /** With 0 < a < b the written sample is `|u - 0.5|`: it lies in [0, 0.5],
      outside the documented support, and the draw 0.5 gives exactly zero. */
  lemma SegmentedAsWrittenCollapses(su: SegmentedUniform, u: real)
    requires 0.0 < su.a < su.b
    requires 0.0 <= u < 1.0
    ensures SegmentedSampleAsWritten(su, u) == Abs(u - 0.5)
    ensures 0.0 <= SegmentedSampleAsWritten(su, u) <= 0.5
    ensures u == 0.5 ==> SegmentedSampleAsWritten(su, u) == 0.0
  {
  }

  /** The distribution the test samples, `SegmentedUniform{.5, 1.5}`, returns zero
      for the draw 0.5, so a run using it can divide by zero. */
  lemma SegmentedAsWrittenHitsZero()
    ensures SegmentedSampleAsWritten(SegmentedUniform(0.5, 1.5), 0.5) == 0.0
    ensures !NeverZero(u => SegmentedSampleAsWritten(SegmentedUniform(0.5, 1.5), u))
  {
    var d := u => SegmentedSampleAsWritten(SegmentedUniform(0.5, 1.5), u);
    assert d(0.5) == 0.0;
  }

  /** The documented sample: the stretched magnitude `a + 2|r|(b - a)` with the
      sign of the offset `r`. */
  function SegmentedSample(su: SegmentedUniform, u: real): (x: real)
    ensures 0.0 <= su.a <= su.b && 0.0 <= u < 1.0 ==> su.a <= Abs(x) <= su.b
    ensures u < 0.5 ==> x <= 0.0
    ensures 0.5 <= u ==> 0.0 <= x
  {
    var r := u - 0.5;
    Copysign(Along(su.a, Abs(r) * 2.0, su.b - su.a), r)
  }

  /** For 0 < a < b and a draw in [0, 1) the corrected sample lies in
      [a, b] U [-b, -a], with the sign of `u - 0.5`. */
  lemma SegmentedSampleInSupport(su: SegmentedUniform, u: real)
    requires 0.0 < su.a < su.b
    requires 0.0 <= u < 1.0
    ensures su.a <= Abs(SegmentedSample(su, u)) <= su.b
    ensures u < 0.5 <==> SegmentedSample(su, u) < 0.0
  {
  }

  /** Whatever the draw, the corrected sample has magnitude at least `a`, so with
      0 < a < b it is never zero. */
  lemma SegmentedNeverZero(su: SegmentedUniform)
    requires 0.0 < su.a < su.b
    ensures NeverZero(u => SegmentedSample(su, u))
  {
  }
}

=== FILE: spsa_examples.dfy ===
/** The optimisations of the SPSA tests (spsa_test.go), run through the model:
    the absolute sum is a total loss, so `Optimize` always completes on it. The
    Rosenbrock loss has a precondition (an even length), so it is not a total
    `Loss` and cannot be handed to `Optimize` as one. */
module SpsaExamples {
  import opened Vectors
  import opened Streams
  import opened Gains
  import opened Engine
  import opened Losses

  /** Optimising the absolute sum without constraints never reports a fault, and
      gives back a vector as long as the starting point. */
  lemma OptimizeAbsoluteSum(theta0: Vector, n: int, a: real, c: real, pow: (real, real) -> real, rng: Stream)
    requires PowLaws(pow) && c != 0.0
    ensures Optimize(AbsoluteSum, theta0, n, a, c, pow, [], rng).Ok?
    ensures |Optimize(AbsoluteSum, theta0, n, a, c, pow, [], rng).value| == |theta0|
  {
    OptimizeSucceeds(AbsoluteSum, theta0, n, a, c, pow, [], rng);
  }

  /** The call of the absolute-sum test: five ones, 1000 rounds, `a = 1`,
      `c = 0.1`, whatever the uniform draws. */
  lemma OptimizeAbsoluteSumTest(pow: (real, real) -> real, rng: Stream)
    requires PowLaws(pow)
    ensures Optimize(AbsoluteSum, Fill(5, 1.0), 1000, 1.0, 0.1, pow, [], rng).Ok?
    ensures |Optimize(AbsoluteSum, Fill(5, 1.0), 1000, 1.0, 0.1, pow, [], rng).value| == 5
  {
    OptimizeAbsoluteSum(Fill(5, 1.0), 1000, 1.0, 0.1, pow, rng);
  }
}

=== FILE: streams.dfy ===
/** Infinite sequences of reals read through a cursor. In Go the gain sequences are
    unbuffered channels fed by a goroutine and the perturbation samples come from
    `math/rand`; both are, to their reader, an endless supply of values consumed one
    at a time. Here such a supply is the function from index to value together with
    the index of the next value to be read. */
module Streams {

  datatype Stream = Stream(at: nat -> real, pos: nat)

  /** The stream with its cursor moved `n` places further. */
  function Skip(s: Stream, n: nat): (t: Stream)
    ensures t.at == s.at
    ensures t.pos == s.pos + n
  {
    Stream(s.at, s.pos + n)
  }

  /** One receive: the value under the cursor, and the stream advanced past it. */
  function Pull(s: Stream): (r: (real, Stream))
    ensures r.0 == s.at(s.pos)
    ensures r.1 == Skip(s, 1)
  {
    (s.at(s.pos), Stream(s.at, s.pos + 1))
  }

  /** `n` receives in a row. The values read are exactly the next `n` values of the
      stream, in order, and the cursor ends `n` places further on. */
  function Take(s: Stream, n: nat): (r: (seq<real>, Stream))
    ensures |r.0| == n
    ensures forall i :: 0 <= i < n ==> r.0[i] == s.at(s.pos + i)
    ensures r.1 == Skip(s, n)
    decreases n
  {
    if n == 0 then ([], s)
    else
      var (x, rest) := Pull(s);
      var (xs, last) := Take(rest, n - 1);
      ([x] + xs, last)
  }

  /** Reading `m` values and then `n` more is reading `m + n` values. */
  lemma {:induction false} TakeSplit(s: Stream, m: nat, n: nat)
    ensures Take(s, m + n).0 == Take(s, m).0 + Take(Take(s, m).1, n).0
    ensures Take(s, m + n).1 == Take(Take(s, m).1, n).1
  {
    var whole := Take(s, m + n).0;
    var front := Take(s, m).0;
    var back := Take(Take(s, m).1, n).0;
    forall i | 0 <= i < m + n
      ensures whole[i] == (front + back)[i]
    {
      if i >= m {
        assert back[i - m] == s.at(s.pos + m + (i - m));
      }
    }
  }

  /** Every value from the cursor on is strictly positive. */
  ghost predicate PositiveFrom(s: Stream)
  {
    forall k :: s.pos <= k ==> 0.0 < s.at(k)
  }

  /** Every value from the cursor on is non-zero. */
  ghost predicate NonZeroFrom(s: Stream)
  {
    forall k :: s.pos <= k ==> s.at(k) != 0.0
  }

  /** Reading never reaches back behind the cursor: a stream that is non-zero from
      its cursor on stays so after any number of reads. */
  lemma NonZeroAfterSkip(s: Stream, n: nat)
    requires NonZeroFrom(s)
    ensures NonZeroFrom(Skip(s, n))
  {
  }
}

=== FILE: vector_examples.dfy ===
/** The concrete vectors of the vector tests (vector_test.go), and the tolerance
    comparison those tests use. */
module VectorExamples {
  import opened Vectors

  /** The comparison as the tests write it: only `a - b < eps`, so any `a` far
      below `b` passes. */
  predicate CloseAsWritten(a: real, b: real, eps: real)
  {
    a - b < eps
  }

  /** The comparison the tests evidently intend: `|a - b| < eps`. */
  predicate Close(a: real, b: real, eps: real)
  {
    -eps < a - b < eps
  }

  /** The written comparison accepts the mean square 11 of [1, 2, 3, 4, 5] as
      equal to the expected 13, while the two-sided comparison rejects it. */
  lemma CloseAsWrittenAcceptsWrongMeanSquare()
    ensures MeanSquare([1.0, 2.0, 3.0, 4.0, 5.0]) == 11.0
    ensures CloseAsWritten(MeanSquare([1.0, 2.0, 3.0, 4.0, 5.0]), 13.0, 0.0001)
    ensures !Close(MeanSquare([1.0, 2.0, 3.0, 4.0, 5.0]), 13.0, 0.0001)
  {
    MeanSquareOfListing();
  }

  /** The two-sided comparison is symmetric, accepts exactly the values within
      `eps` of each other, and implies the written one-sided check. */
  lemma CloseMeaning(a: real, b: real, eps: real)
    ensures Close(a, b, eps) <==> Close(b, a, eps)
    ensures Close(a, b, eps) <==> Abs(a - b) < eps
    ensures Close(a, b, eps) ==> CloseAsWritten(a, b, eps)
  {
  }

  /** The written comparison is not symmetric: 11 passes against 13, 13 fails
      against 11. */
  lemma CloseAsWrittenIsOneSided()
    ensures CloseAsWritten(11.0, 13.0, 0.0001)
    ensures !CloseAsWritten(13.0, 11.0, 0.0001)
  {
  }

  lemma MeanSquareOfListing()
    ensures MeanSquare([1.0, 2.0, 3.0, 4.0, 5.0]) == 11.0
  {
    var a := [1.0, 2.0, 3.0, 4.0, 5.0];
    assert Squares(a) == [1.0, 4.0, 9.0, 16.0, 25.0];
    SumOfFive(1.0, 4.0, 9.0, 16.0, 25.0);
  }

  lemma SumOfFive(x0: real, x1: real, x2: real, x3: real, x4: real)
    ensures Sum([x0, x1, x2, x3, x4]) == x0 + x1 + x2 + x3 + x4
  {
    SumOfThree(x0, x1, x2);
    var a := [x0, x1, x2, x3, x4];
    assert a[..4][..3] == [x0, x1, x2];
    assert Sum(a[..4]) == Sum([x0, x1, x2]) + x3;
  }

  lemma SumOfThree(x0: real, x1: real, x2: real)
    ensures Sum([x0, x1, x2]) == x0 + x1 + x2
  {
    var a := [x0, x1, x2];
    assert a[..2][..1][..0] == [];
    assert Sum(a[..2][..1]) == x0;
    assert a[..2][..1] == [x0];
    assert Sum(a[..2]) == x0 + x1;
  }

  /** Scaling [1, 2, 3, 4, 5] by 5 gives [5, 10, 15, 20, 25]. */
  lemma ScaleExample()
    ensures Scale([1.0, 2.0, 3.0, 4.0, 5.0], 5.0) == [5.0, 10.0, 15.0, 20.0, 25.0]
  {
  }

  /** [1, 2, 3, 4, 5] plus [5, 4, 3, 2, 1] is [6, 6, 6, 6, 6], and minus it is
      [-4, -2, 0, 2, 4]. */
  lemma AddSubtractExample()
    ensures Add([1.0, 2.0, 3.0, 4.0, 5.0], [5.0, 4.0, 3.0, 2.0, 1.0]) == Fill(5, 6.0)
    ensures Subtract([1.0, 2.0, 3.0, 4.0, 5.0], [5.0, 4.0, 3.0, 2.0, 1.0]) == [-4.0, -2.0, 0.0, 2.0, 4.0]
  {
  }

  /** The sum of [1, 2, 3, 4, 5.6] is 15.6 and the mean of [1.1, 2, 2.9] is 2, exactly
      over the reals. */
  lemma SumMeanExample()
    ensures Sum([1.0, 2.0, 3.0, 4.0, 5.6]) == 15.6
    ensures Mean([1.1, 2.0, 2.9]) == 2.0
  {
    SumOfFive(1.0, 2.0, 3.0, 4.0, 5.6);
    SumOfThree(1.1, 2.0, 2.9);
  }
}

=== FILE: vectors.dfy ===
/** Real vectors with out-of-place arithmetic, summary statistics and a textual
    rendering (vector.go). A Go `Vector` is a `[]float64`; here it is a sequence of
    reals, so every operation is out of place by construction. */
module Vectors {

  type Vector = seq<real>

  /** The vector of length `n` whose every element is `c`. */
  function Fill(n: nat, c: real): (v: Vector)
    ensures |v| == n
    ensures forall i :: 0 <= i < n ==> v[i] == c
  {
    seq(n, i => c)
  }

  function Zeros(n: nat): Vector
  {
    Fill(n, 0.0)
  }

  /** `math.Abs`. */
  function Abs(x: real): (m: real)
    ensures 0.0 <= m
    ensures m == x || m == -x
  {
    if x < 0.0 then -x else x
  }

  /** A copy has the length of `a` and agrees with it at every index. */
  function Copy(a: Vector): (b: Vector)
    ensures |b| == |a|
    ensures forall i :: 0 <= i < |a| ==> b[i] == a[i]
  {
    seq(|a|, i requires 0 <= i < |a| => a[i])
  }

  function Scale(a: Vector, s: real): (b: Vector)
    ensures |b| == |a|
    ensures forall i :: 0 <= i < |a| ==> b[i] == a[i] * s
  {
    seq(|a|, i requires 0 <= i < |a| => a[i] * s)
  }

  /** Go copies `a` and then adds `b` index by index, so the result has the length
      of `a`, a `b` longer than `a` panics, and a shorter `b` leaves the tail of `a`. */
  function Add(a: Vector, b: Vector): (c: Vector)
    requires |b| <= |a|
    ensures |c| == |a|
    ensures forall i :: 0 <= i < |b| ==> c[i] == a[i] + b[i]
    ensures forall i :: |b| <= i < |a| ==> c[i] == a[i]
  {
    seq(|a|, i requires 0 <= i < |a| => if i < |b| then a[i] + b[i] else a[i])
  }

  function Subtract(a: Vector, b: Vector): (c: Vector)
    requires |b| <= |a|
    ensures |c| == |a|
    ensures forall i :: 0 <= i < |b| ==> c[i] == a[i] - b[i]
    ensures forall i :: |b| <= i < |a| ==> c[i] == a[i]
  {
    seq(|a|, i requires 0 <= i < |a| => if i < |b| then a[i] - b[i] else a[i])
  }

  /** Writing into a copy leaves the original as it was: the copy with one element
      overwritten differs from `a` exactly at that index. Sequences are values, so
      once `Copy(a) == a` holds the first two clauses are facts about sequence update
      in general; they are kept to state the test's out-of-place claim in its own
      shape. */
  lemma CopyIsIndependent(a: Vector, i: nat, x: real)
    requires i < |a|
    ensures Copy(a)[i := x][i] == x
    ensures forall j :: 0 <= j < |a| && j != i ==> Copy(a)[i := x][j] == a[j]
    ensures Copy(a) == a
  {
  }

  lemma ScaleByOne(a: Vector)
    ensures Scale(a, 1.0) == a
  {
  }

  lemma ScaleCompose(a: Vector, s: real, t: real)
    ensures Scale(Scale(a, s), t) == Scale(a, s * t)
  {
    forall i | 0 <= i < |a|
      ensures Scale(Scale(a, s), t)[i] == Scale(a, s * t)[i]
    {
      assert a[i] * s * t == a[i] * (s * t);
    }
  }

  lemma SubtractSelf(a: Vector)
    ensures Subtract(a, a) == Zeros(|a|)
  {
  }

  /** Subtracting `b` undoes adding it. */
  lemma AddThenSubtract(a: Vector, b: Vector)
    requires |b| <= |a|
    ensures Subtract(Add(a, b), b) == a
  {
  }

  /** Subtraction is addition of the negated operand. */
  lemma SubtractIsAddNegated(a: Vector, b: Vector)
    requires |b| <= |a|
    ensures Subtract(a, b) == Add(a, Scale(b, -1.0))
  {
  }

  lemma AddCommutes(a: Vector, b: Vector)
    requires |a| == |b|
    ensures Add(a, b) == Add(b, a)
  {
  }

  // ---------------------------------------------------------------------------
  // Aggregates

  /** Go's `Sum` accumulates from the first element to the last: a left fold. */
  function Sum(a: Vector): real
    decreases |a|
  {
    if |a| == 0 then 0.0 else Sum(a[..|a| - 1]) + a[|a| - 1]
  }

  lemma {:induction false} SumAppend(a: Vector, b: Vector)
    ensures Sum(a + b) == Sum(a) + Sum(b)
    decreases |b|
  {
    if |b| == 0 {
      assert a + b == a;
    } else {
      assert (a + b)[..|a + b| - 1] == a + b[..|b| - 1];
      SumAppend(a, b[..|b| - 1]);
    }
  }

  /** Folding from the front gives the same total as Go's left fold. */
  lemma SumCons(x: real, a: Vector)
    ensures Sum([x] + a) == x + Sum(a)
  {
    SumAppend([x], a);
  }

  lemma {:induction false} SumScale(a: Vector, s: real)
    ensures Sum(Scale(a, s)) == s * Sum(a)
    decreases |a|
  {
    if |a| > 0 {
      var init := a[..|a| - 1];
      forall i | 0 <= i < |init|
        ensures Scale(init, s)[i] == a[i] * s
      {
        assert init[i] == a[i];
      }
      assert Scale(a, s)[..|a| - 1] == Scale(init, s);
      SumScale(a[..|a| - 1], s);
    }
  }

  lemma {:induction false} SumAdd(a: Vector, b: Vector)
    requires |a| == |b|
    ensures Sum(Add(a, b)) == Sum(a) + Sum(b)
    decreases |a|
  {
    if |a| > 0 {
      assert Add(a, b)[..|a| - 1] == Add(a[..|a| - 1], b[..|b| - 1]);
      SumAdd(a[..|a| - 1], b[..|b| - 1]);
    }
  }

  lemma {:induction false} SumFill(n: nat, c: real)
    ensures Sum(Fill(n, c)) == n as real * c
    decreases n
  {
    if n > 0 {
      assert Fill(n, c)[..n - 1] == Fill(n - 1, c);
      SumFill(n - 1, c);
    }
  }

  /** The sum is monotone in every element. */
  lemma {:induction false} SumMonotone(a: Vector, b: Vector)
    requires |a| == |b|
    requires forall i :: 0 <= i < |a| ==> a[i] <= b[i]
    ensures Sum(a) <= Sum(b)
    decreases |a|
  {
    if |a| > 0 {
      SumMonotone(a[..|a| - 1], b[..|b| - 1]);
    }
  }

  /** ... and strictly so when every element is strictly smaller. */
  lemma {:induction false} SumStrictlyMonotone(a: Vector, b: Vector)
    requires 0 < |a| == |b|
    requires forall i :: 0 <= i < |a| ==> a[i] < b[i]
    ensures Sum(a) < Sum(b)
    decreases |a|
  {
    SumMonotone(a[..|a| - 1], b[..|b| - 1]);
  }

  /** A sum of non-negative terms is non-negative, and it is zero exactly when every
      term is. */
  lemma {:induction false} SumNonNegative(a: Vector)
    requires forall i :: 0 <= i < |a| ==> 0.0 <= a[i]
    ensures 0.0 <= Sum(a)
    ensures Sum(a) == 0.0 <==> forall i :: 0 <= i < |a| ==> a[i] == 0.0
    decreases |a|
  {
    if |a| > 0 {
      var init := a[..|a| - 1];
      SumNonNegative(init);
      if Sum(a) == 0.0 {
        forall i | 0 <= i < |a|
          ensures a[i] == 0.0
        {
          if i < |a| - 1 {
            assert a[i] == init[i];
          }
        }
      }
    }
  }

  /** The mean times the number of elements gives back the sum. */
  function Mean(a: Vector): (m: real)
    requires |a| > 0
    ensures m * |a| as real == Sum(a)
  {
    Sum(a) / |a| as real
  }

  /** The mean lies between the smallest and the largest element. */
  lemma MeanWithinRange(a: Vector)
    requires |a| > 0
    ensures exists i :: 0 <= i < |a| && a[i] <= Mean(a)
    ensures exists j :: 0 <= j < |a| && Mean(a) <= a[j]
  {
    var n := |a| as real;
    var m := Mean(a);
    SumFill(|a|, m);
    assert Sum(Fill(|a|, m)) == Sum(a);
    if forall i :: 0 <= i < |a| ==> m < a[i] {
      SumStrictlyMonotone(Fill(|a|, m), a);
      assert false;
    }
    if forall j :: 0 <= j < |a| ==> a[j] < m {
      SumStrictlyMonotone(a, Fill(|a|, m));
      assert false;
    }
  }

  lemma MeanOfFill(n: nat, c: real)
    requires n > 0
    ensures Mean(Fill(n, c)) == c
  {
    SumFill(n, c);
  }

  /** `math.Pow(x, 2)`: never negative. */
  function Sq(x: real): (r: real)
    ensures 0.0 <= r
  {
    x * x
  }

  /** Element-wise squares. */
  function Squares(a: Vector): (q: Vector)
    ensures |q| == |a|
    ensures forall i :: 0 <= i < |a| ==> q[i] == Sq(a[i])
  {
    seq(|a|, i requires 0 <= i < |a| => Sq(a[i]))
  }

  /** Element-wise squared deviations from `m`. */
  function SquaredDeviations(a: Vector, m: real): (q: Vector)
    ensures |q| == |a|
    ensures forall i :: 0 <= i < |a| ==> q[i] == Sq(a[i] - m)
  {
    seq(|a|, i requires 0 <= i < |a| => Sq(a[i] - m))
  }

  lemma SquaresNonNegative(a: Vector)
    ensures forall i :: 0 <= i < |a| ==> 0.0 <= Squares(a)[i]
  {
  }

  /** Mean of the squared elements: never negative. */
  function MeanSquare(a: Vector): (r: real)
    requires |a| > 0
    ensures 0.0 <= r
  {
    SquaresNonNegative(a);
    SumNonNegative(Squares(a));
    Sum(Squares(a)) / |a| as real
  }

  /** Sample variance with Bessel's correction: never negative. For the empty vector
      Go's loop never runs and `0 / -1` is a (negative) zero; a single element would
      be `0 / 0`. */
  function Var(a: Vector): (v: real)
    requires |a| != 1
    ensures 0.0 <= v
    ensures |a| == 0 ==> v == 0.0
  {
    if |a| == 0 then 0.0 else
    var q := SquaredDeviations(a, Mean(a));
    assert forall i :: 0 <= i < |q| ==> 0.0 <= q[i];
    SumNonNegative(q);
    Sum(q) / (|a| - 1) as real
  }

  /** The mean square of a constant vector is the square of the constant. */
  lemma MeanSquareOfFill(n: nat, c: real)
    requires n > 0
    ensures MeanSquare(Fill(n, c)) == Sq(c)
  {
    assert Squares(Fill(n, c)) == Fill(n, Sq(c));
    MeanOfFill(n, Sq(c));
  }

  /** A constant vector has no spread. */
  lemma VarOfFill(n: nat, c: real)
    requires n != 1
    ensures Var(Fill(n, c)) == 0.0
  {
    if n == 0 {
      return;
    }
    MeanOfFill(n, c);
    assert SquaredDeviations(Fill(n, c), c) == Zeros(n);
    SumFill(n, 0.0);
  }

  // ---------------------------------------------------------------------------
  // Textual form

  /** The rendering of each element by the per-element formatter (Go: `%.2f`). */
  function Formatted(a: Vector, fmt: real -> string): (parts: seq<string>)
    ensures |parts| == |a|
    ensures forall i :: 0 <= i < |a| ==> parts[i] == fmt(a[i])
  {
    seq(|a|, i requires 0 <= i < |a| => fmt(a[i]))
  }

  /** The parts separated by single commas: none before the first part, none after
      the last. */
  function Join(parts: seq<string>): (r: string)
    ensures |parts| == 0 ==> r == ""
    ensures |parts| > 0 ==> parts[0] <= r
    ensures |parts| > 0 ==> |parts[|parts| - 1]| <= |r| && r[|r| - |parts[|parts| - 1]|..] == parts[|parts| - 1]
    decreases |parts|
  {
    if |parts| == 0 then ""
    else if |parts| == 1 then parts[0]
    else Join(parts[..|parts| - 1]) + "," + parts[|parts| - 1]
  }

  /** The bracketed, comma-separated form of a vector: the first element's text
      right after the opening bracket, the last one's right before the closing one. */
  function Render(a: Vector, fmt: real -> string): (r: string)
    ensures 2 <= |r| && r[0] == '[' && r[|r| - 1] == ']'
    ensures |a| == 0 ==> r == "[]"
    ensures |a| > 0 ==> fmt(a[0]) <= r[1..]
    ensures |a| > 0 ==>
      |fmt(a[|a| - 1])| + 2 <= |r| && r[|r| - 1 - |fmt(a[|a| - 1])|..|r| - 1] == fmt(a[|a| - 1])
  {
    "[" + Join(Formatted(a, fmt)) + "]"
  }

  /** The text `String` has built after `i` elements of `parts`: those parts joined,
      and a trailing comma while more are to come. */
  function Partial(parts: seq<string>, i: nat): string
    requires i <= |parts|
  {
    if i == 0 then "" else Join(parts[..i]) + (if i < |parts| then "," else "")
  }

  /** One more step of the loop: the part, and a comma unless it was the last. */
  lemma PartialStep(parts: seq<string>, i: nat)
    requires i < |parts|
    ensures Partial(parts, i + 1)
         == Partial(parts, i) + parts[i] + (if i != |parts| - 1 then "," else "")
  {
    JoinStep(parts, i);
  }

  /** Go's `String`: append each element, then a comma unless it was the last. */
  method String(a: Vector, fmt: real -> string) returns (s: string)
    ensures s == Render(a, fmt)
  {
    ghost var parts := Formatted(a, fmt);
    var body := "";
    for i := 0 to |a|
      invariant body == Partial(parts, i)
    {
      PartialStep(parts, i);
      body := body + fmt(a[i]);
      if i != |a| - 1 {
        body := body + ",";
      }
    }
    assert parts[..|a|] == parts;
    s := "[" + body + "]";
  }

  /** Joining one more part appends a comma (unless it is the first part) and the
      part. */
  lemma JoinStep(parts: seq<string>, i: nat)
    requires i < |parts|
    ensures Join(parts[..i + 1]) == if i == 0 then parts[0] else Join(parts[..i]) + "," + parts[i]
  {
    assert parts[..i + 1][..i] == parts[..i];
  }

  /** Number of occurrences of `c` in `s`. */
  function Count(s: string, c: char): nat
    decreases |s|
  {
    if |s| == 0 then 0 else Count(s[..|s| - 1], c) + (if s[|s| - 1] == c then 1 else 0)
  }

  lemma {:induction false} CountAppend(s: string, t: string, c: char)
    ensures Count(s + t, c) == Count(s, c) + Count(t, c)
    decreases |t|
  {
    if |t| == 0 {
      assert s + t == s;
    } else {
      assert (s + t)[..|s + t| - 1] == s + t[..|t| - 1];
      CountAppend(s, t[..|t| - 1], c);
    }
  }

  /** With comma-free parts, the joined text holds exactly one comma between each
      two neighbouring parts: no trailing comma. */
  lemma {:induction false} JoinSeparators(parts: seq<string>)
    requires |parts| > 0
    requires forall i :: 0 <= i < |parts| ==> Count(parts[i], ',') == 0
    ensures Count(Join(parts), ',') == |parts| - 1
    decreases |parts|
  {
    if |parts| > 1 {
      var init := parts[..|parts| - 1];
      JoinSeparators(init);
      CountAppend(Join(init), ",", ',');
      CountAppend(Join(init) + ",", parts[|parts| - 1], ',');
    }
  }

  /** The rendering is bracketed, and when the formatter never produces a comma it
      holds |a| - 1 commas (none for the empty vector, which renders as "[]"). */
  lemma RenderShape(a: Vector, fmt: real -> string)
    requires forall x :: Count(fmt(x), ',') == 0
    ensures Render(a, fmt)[0] == '['
    ensures Render(a, fmt)[|Render(a, fmt)| - 1] == ']'
    ensures Count(Render(a, fmt), ',') == if |a| == 0 then 0 else |a| - 1
    ensures |a| == 0 ==> Render(a, fmt) == "[]"
  {
    var parts := Formatted(a, fmt);
    CountAppend("[", Join(parts), ',');
    CountAppend("[" + Join(parts), "]", ',');
    if |a| > 0 {
      forall i | 0 <= i < |parts|
        ensures Count(parts[i], ',') == 0
      {
        var y: real := a[i];
        assert parts[i] == fmt(y);
        assert Count(fmt(y), ',') == 0;
      }
      JoinSeparators(parts);
    }
  }
}
